=== FILE: README.md ===
# Order lifecycle of the bazar backend, in Dafny

This project models the order service of an e-commerce backend
(`src/app/modules/order/order.service.ts`). It covers five pieces of that service:

- **Order-id allocation.** `generateOrderId` builds a date key: the year unpadded,
  then the month and the day zero-padded to two digits. It bumps that day's counter,
  which an upsert starts at 1. It returns `dateKey-serial`, where the serial is the
  count zero-padded to at least four digits.
- **Order creation.** `createOrderIntoDB` stores the allocated id on the order and
  gives every line item a fresh tracking number.
- **Bulk status change.** `changeOrderStatusInDB` checks the requested status against
  the closed list of six statuses. It then overwrites the status of every line item
  of one order.
- **Summaries.** `getOrderSummaryFromDB` and `getOrderRangeSummaryFromDB` count the
  orders. They classify each order by its first line item, then count and total the
  pending and the completed orders. The range variant first keeps only the orders
  created between the start date and the end of the end date.
- **Public tracking lookup.** `getOrderByTrackingNumberFromDB` returns the order that
  holds a tracking number, with its `orderInfo` cut down to the matching item.
- **Recently ordered products.** The last step of `recentlyOrderedProductsFromDB`
  puts the fetched products back into the order of the id list and drops ids that
  have no product.

The order collection is modelled as a sequence of `Order` values, kept in store
order. The first match in that sequence plays the part of `findOne` and `findById`.
The counter collection is a map from date key to count. Every service is a pure
function, or a method with a loop, that takes the state and returns the new state
with its result. Errors are values of `Results.Result` (`NotFound`, `BadRequest`).
The one exception is the TypeError of the recently-ordered lookup on a `null` product
id. `RecentProducts.RecentlyOrderedFromGroups` returns it as `None` of an `Option`,
because it is a crash, not an application error.

The following inputs are parameters rather than computed:

- the allocator's clock reading (`CalendarDate`);
- the tracking tokens the token generator hands out (`tokens`);
- the parsed start and end dates (`Option<int>` milliseconds, where `None` is an
  invalid date);
- the product list that the storage query returns.

Modules, one per file:

| file | module | contents |
|---|---|---|
| results.dfy | Results | `Option`, `Error`, `Result` |
| decimal.dfy | Decimal | `String(n)` for naturals, digit-string values, `padStart` |
| order_id.dfy | OrderIds | date key, serial, id format and its parser, daily counters, `GenerateOrderId` |
| orders.dfy | Orders | `Status`, `LineItem`, `Order`, store lookups, tracking-number uniqueness |
| order_status.dfy | StatusChange | `ChangeOrderStatus` |
| order_summary.dfy | Summaries | first-item classification, `Summarize`, date window, `OrderRangeSummary` |
| order_tracking.dfy | Tracking | `GetOrderByTrackingNumber` |
| order_create.dfy | Creation | `CreateOrder`, order-id and tracking-number invariants |
| lifecycle.dfy | Lifecycle | how status changes, creation and lookup compose |
| recent_products.dfy | RecentProducts | re-ordering the fetched products by the id list |

Behaviours of the code worth knowing:

- The range summary does not reject a start date that falls after the end date's
  day. Such a call succeeds with an all-zero summary, which
  `Summaries.InvertedWindowIsEmpty` proves. A start later on the end date's own day
  still selects the orders between the start and the end of that day.
- The year in the date key is not padded, so before year 1000 the key is shorter
  than `YYYYMMDD`. `OrderIds.DateKeyRoundTrip` shows that the key still identifies
  the day.
- Only the range summary rounds its amounts (`toFixed(2)`). The plain summary
  returns the raw sums. With amounts held in integer cents, both are exact.
- A line item without `productInfo` groups under a `null` key. Once a product is
  fetched, the lookup calls `id.toString()` on that key and throws a TypeError.
  `RecentProducts.RecentlyOrderedFromGroups` models this as a failure.
- An end date on the last day a JavaScript date can hold makes the range summary
  fail with BadRequest, because its end of day lies past the largest valid time.

## Model

| member | source | states |
|---|---|---|
| Decimal.ToDecimal | src/app/modules/order/order.service.ts:287 | `String(count)` is a non-empty digit string that begins with '0' exactly when the count is 0 |
| Decimal.DecimalRoundTrip | src/app/modules/order/order.service.ts:287 | reading the decimal text of a count back gives the count |
| Decimal.DecimalInjective | src/app/modules/order/order.service.ts:287 | distinct counts have distinct decimal texts |
| Decimal.DecimalFitsIn | src/app/modules/order/order.service.ts:276-277 | the text of n has at most k digits exactly when n < 10^k, so months and days have at most two digits |
| Decimal.PadStart | src/app/modules/order/order.service.ts:287 | `padStart` yields the longer of the width and the input, keeps the input as its suffix, and fills only with the fill character |
| Decimal.PaddedDecimalValue | src/app/modules/order/order.service.ts:287 | zero-padding the text of a count keeps its value |
| OrderIds.TwoDigits | src/app/modules/order/order.service.ts:276-277 | a month or day below 100 becomes exactly two digits that read back as the number |
| OrderIds.DateKey | src/app/modules/order/order.service.ts:278 | the date key is a string of decimal digits |
| OrderIds.DateKeyRoundTrip | src/app/modules/order/order.service.ts:274-278 | the date key of a valid day parses back to that day (year, two-digit month, two-digit day) |
| OrderIds.ParseJoinedKey | src/app/modules/order/order.service.ts:278 | a key joined from a year, a 2-digit month and a 2-digit day splits back into those three parts |
| OrderIds.DateKeyInjective | src/app/modules/order/order.service.ts:274-278 | two valid days share a date key only if they are the same day |
| OrderIds.Serial | src/app/modules/order/order.service.ts:287 | the serial is exactly four digits, or the count's digit count when that is larger; it ends with the count's full text (never truncated), reads back as the count, and is the plain text from 1000 upwards |
| OrderIds.SerialWidth | src/app/modules/order/order.service.ts:287 | the serial is four characters long exactly when the day's count is below 10000 |
| OrderIds.FirstDashAfterDigits | src/app/modules/order/order.service.ts:288 | in `dateKey-serial` the first '-' sits right after the digit key |
| OrderIds.ParseJoinedId | src/app/modules/order/order.service.ts:288 | `key-serial` with digit parts parses back to the key and the serial's value |
| OrderIds.FormatOrderId | src/app/modules/order/order.service.ts:288 | `${dateKey}-${serialNumber}` starts with the key and '-', is as long as the key plus one plus the serial's width, and for a digit key parses back to the key and the count |
| OrderIds.OrderIdRoundTrip | src/app/modules/order/order.service.ts:287-288 | parsing `dateKey-serial` gives back the date key and the count |
| OrderIds.OrderIdInjective | src/app/modules/order/order.service.ts:287-288 | two ids are equal only if their date keys and counts are |
| OrderIds.Increment | src/app/modules/order/order.service.ts:281-285 | the upsert sets the day's count to the old count plus one (1 for a new day), returns the new count and leaves every other day's counter unchanged |
| OrderIds.GenerateOrderId | src/app/modules/order/order.service.ts:273-289 | the id is today's date key, '-', and the zero-padded serial of the day's new count, and it parses back to that key and count; only today's counter moves, by one |
| OrderIds.GeneratedIdNamesDay | src/app/modules/order/order.service.ts:274-288 | the id of a valid day's allocation names that day and the count it took |
| OrderIds.SuccessiveIdsDistinct | src/app/modules/order/order.service.ts:281-288 | two successive allocations never return the same id |
| Orders.ParseStatus | src/app/modules/order/order.service.ts:319-330 | a status name is accepted exactly when it is one of the six listed names, and it maps to the status with that name |
| Orders.StatusNameRoundTrip | src/app/modules/order/order.service.ts:319-326 | each status is accepted under its own name |
| Orders.FindById | src/app/modules/order/order.service.ts:333-334 | the lookup by `_id` finds the first order with that id, or reports that none has it |
| Orders.ItemIndex | src/app/modules/order/order.service.ts:146-148 | the first line item with the tracking number, or none has it |
| StatusChange.WithStatus | src/app/modules/order/order.service.ts:336-338 | every line item gets the new status and nothing else about it changes |
| StatusChange.ChangeOrderStatus | src/app/modules/order/order.service.ts:317-348 | an unlisted status gives BadRequest with the store unchanged; an unknown id gives NotFound with the store unchanged; otherwise every line item of that order has the new status, the item count and all other fields are kept, the other orders are untouched, and the stored order is returned |
| Summaries.FirstStatus | src/app/modules/order/order.service.ts:188-189 | an order has a representative status exactly when it has a line item |
| Summaries.AmountOrZero | src/app/modules/order/order.service.ts:190 | a missing total counts as 0 and a present total is taken as it is |
| Summaries.Summarize | src/app/modules/order/order.service.ts:180-208 | the loop's totals equal the reference counts and sums of the first-item buckets, `totalOrders` is the number of orders, and pending + completed never exceeds it |
| Summaries.BucketsBounded | src/app/modules/order/order.service.ts:186-199 | pending count + completed count <= number of orders |
| Summaries.CountIsBucketSize | src/app/modules/order/order.service.ts:188-198 | the count of a bucket is the number of orders whose first line item exists and has that status |
| Summaries.IndicesOfLonger | src/app/modules/order/order.service.ts:187-199 | scanning one more order adds it to the bucket exactly when its first item has the bucket's status |
| Summaries.CountAppend | src/app/modules/order/order.service.ts:187-199 | bucket counts and bucket amounts of two batches add up |
| Summaries.SummaryOfAppend | src/app/modules/order/order.service.ts:180-208 | the summary of two batches together is the sum of their summaries |
| Summaries.SingleOrderSummary | src/app/modules/order/order.service.ts:188-198 | one order lands in its first item's bucket with its amount, a missing amount counting as 0 |
| Summaries.ThreeOrderFixture | src/app/modules/order/order.service.ts:175-208 | two pending orders of 100.00 and 50.00 and one completed of 75.00 summarise to 3 / 2 / 1 / 150.00 / 75.00 |
| Summaries.EndOfDay | src/app/modules/order/order.service.ts:217 | the end bound is the last millisecond of the end date's day |
| Summaries.WithinEndDay | src/app/modules/order/order.service.ts:217-225 | a time is at or before the end bound exactly when its day is not after the end day |
| Summaries.InWindow | src/app/modules/order/order.service.ts:224-226 | an order is selected exactly when it is in the store and created within [start, end bound], and each selected order occurs as often as in the store |
| Summaries.OrderRangeSummary | src/app/modules/order/order.service.ts:210-261 | BadRequest exactly when the start or the end date is invalid or the end of the end day lies outside the valid time range; on success the summary is that of the orders in the window, with pending + completed <= total, and the reported days are those of the bounds |
| Summaries.LastDayEndIsInvalid | src/app/modules/order/order.service.ts:217-220 | the last valid time is a valid date, but its end of day is not, so an end date on that day is refused |
| Summaries.InvertedWindowIsEmpty | src/app/modules/order/order.service.ts:215-226 | a start after the end of the end day selects no order and yields an all-zero summary |
| Tracking.ViewOf | src/app/modules/order/order.service.ts:158-165 | the response carries just the one line item and the order's id, customer and payment details, total and creation time |
| Tracking.OrderIndexByTracking | src/app/modules/order/order.service.ts:128-130 | the first order holding the tracking number, or none holds it |
| Tracking.GetOrderByTrackingNumber | src/app/modules/order/order.service.ts:126-168 | NotFound exactly when no order holds the number; otherwise exactly one line item is returned, it carries the number, and it and the other fields come from one order of the store |
| Tracking.LookupFindsTheHolder | src/app/modules/order/order.service.ts:128-167 | with unique tracking numbers, the lookup returns the one order and item that carry the number |
| Creation.AssignTracking | src/app/modules/order/order.service.ts:295-297 | line item j gets token j as its tracking number and nothing else changes |
| Creation.CreateOrder | src/app/modules/order/order.service.ts:291-301 | the order is appended with the id the allocator returns (today's key and the day's new count), each line item carries its token, and every other field of the payload is kept |
| Creation.AppendFreshId | src/app/modules/order/order.service.ts:281-298 | storing an order whose id's count is above its day's old counter keeps all order ids issued and distinct |
| Creation.CreatePreservesOrderIds | src/app/modules/order/order.service.ts:291-298 | creation keeps every stored order id issued by its day's counter and no two orders sharing an id |
| Creation.AppendFreshTracking | src/app/modules/order/order.service.ts:296-298 | storing an order whose tracking numbers are distinct and unused keeps them unique |
| Creation.AppendTokens | src/app/modules/order/order.service.ts:296-298 | storing an order whose items carry distinct, unused tokens keeps tracking numbers unique |
| Creation.CreatePreservesTrackingUnique | src/app/modules/order/order.service.ts:296-298 | creation with distinct, unused tokens keeps every tracking number unique |
| Lifecycle.StatusChangeKeepsTrackingUnique | src/app/modules/order/order.service.ts:333-341 | a status change keeps tracking numbers unique |
| Lifecycle.StatusChangeKeepsOrderIds | src/app/modules/order/order.service.ts:333-341 | a status change keeps order ids issued and distinct |
| Lifecycle.StatusChangeIdempotent | src/app/modules/order/order.service.ts:333-341 | setting the same status twice is the same as setting it once |
| Lifecycle.LookupSeesNewStatus | src/app/modules/order/order.service.ts:333-341 | after a status change, the tracking lookup of any item of that order shows the new status |
| Lifecycle.LookupFindsCreatedItem | src/app/modules/order/order.service.ts:291-298 | after creation with fresh tokens, looking up token j returns the new order with its item j |
| RecentProducts.FindProduct | src/app/modules/order/order.service.ts:97-99 | the product found is the first fetched product with the id; none is found exactly when no product has the id |
| RecentProducts.Present | src/app/modules/order/order.service.ts:101 | the kept products are exactly the ones that were found |
| RecentProducts.RecentlyOrderedProducts | src/app/modules/order/order.service.ts:72-101 | no more products than ids, each of them fetched and carrying an id from the list, and none for an empty list |
| RecentProducts.LookupAll | src/app/modules/order/order.service.ts:97-99 | one lookup result per id, in list order, each the first fetched product with that id |
| RecentProducts.NonNullIds | src/app/modules/order/order.service.ts:60-69 | the group keys that are ids, in order; when no key is null, exactly the keys |
| RecentProducts.RecentlyOrderedFromGroups | src/app/modules/order/order.service.ts:60-101 | the step fails (a TypeError) exactly when a group key is null and some product was fetched; with no product the result is empty; otherwise it is the reorder of the non-null ids, each product fetched and under a listed key |
| RecentProducts.PresentOfMisses | src/app/modules/order/order.service.ts:96-101 | when no lookup found a product, nothing is kept |
| RecentProducts.LookupAllFinds | src/app/modules/order/order.service.ts:97-99 | every product the per-id lookup finds was fetched and carries an id from the list |
| RecentProducts.ResultFollowsIdOrder | src/app/modules/order/order.service.ts:96-101 | the result's ids are the list's ids that have a product, in list order |
| RecentProducts.EveryIdFound | src/app/modules/order/order.service.ts:96-101 | when every id has a product, the result has exactly one product per id, in id order |
| RecentProducts.AllIdsWithProduct | src/app/modules/order/order.service.ts:96-101 | when every id has a product, no id is dropped |

## Left out

- `getAllOrdersFromDB` and `getMyOrdersFromDB` are left out. They are thin wrappers
  over the generic `QueryBuilder`, and `QueryBuilder` is not part of this model.
- `updateOrderInDB` and `getSingleOrderFromDB` are left out. They are generic
  document updates and reads. The not-found check of `getSingleOrderFromDB` never
  fires because its query is not awaited.
- Storage is modelled as sequential. The atomicity of the counter upsert under
  concurrent requests is a guarantee of the storage layer and is not modelled.
- `Creation.CreateOrder` is one step: it bumps the counter and stores the order
  together. In the service these are two storage calls (:281-285 and :298). The
  uniqueness proofs cover every sequence of whole `createOrderIntoDB` calls. They
  do not cover an interleaving in which another request's bump falls between one
  request's bump and its insert.
- Failures of the storage layer (`StorageFailure`) are not modelled. Every storage
  call is assumed to succeed.
- Steps 1 to 3 of `recentlyOrderedProductsFromDB` are not modelled: the
  unwind/sort/group/limit-12 aggregation and the product fetch with `populate`. The
  group keys and the fetched products are inputs. A key is `None` where `$group`
  yields `null` for a line item without `productInfo`.
- The `populate` of product details in the tracking lookup is not modelled. The
  product reference is carried unchanged.
- Date handling is simplified. Parsing a date string is not modelled; the parsed
  value is an input, and `None` stands for an invalid date. `setHours` works in the
  server's local time, but `EndOfDay` uses UTC days. `toISOString` is not modelled;
  the reported range is given as day numbers.
- Amounts are integer cents, so floating-point sums and `toFixed(2)` are not
  modelled. Rounding integer cents to two decimals changes nothing.
- The token generator (`nanoid`) is not modelled. The tokens are an input. Their
  freshness and distinctness are hypotheses of the lemmas that need them.
- The `_id` that storage assigns on creation is not modelled. The payload carries it.
- `Orders.ParseStatus` does not model stored statuses outside the six-value list. A
  stored status is a `Status` value. A stored status outside the list would count
  in neither summary bucket, just as `processing` does, so the summaries are
  unaffected.
- `Summaries.FirstStatus` does not model an `orderInfo` that is not an array
  (`Array.isArray`). An order's `orderInfo` is always a sequence.
- `OrderIds.CalendarDate` does not model a negative year. The year is a natural number.
- `Decimal.ToDecimal` works on unbounded naturals. A JavaScript count is a
  floating-point number: above 2^53 it is no longer exact, and from 10^21 `String`
  writes it in exponent form. The injectivity lemmas hold only below those bounds
  in the real service; no day reaches them.
- `Creation.CreateOrder` keeps the payload's `createdAt`. In the service, storage
  sets the creation timestamp when the order is saved. The lookup and the range
  summary read that stored value.
- `Tracking.GetOrderByTrackingNumber` keeps the second not-found branch (:150-155).
  That branch cannot fire, because `findOne` matched on the same tracking number.
  The contract states this: the lookup fails exactly when no order holds the number.
- `Summaries.OrderRangeSummary` does not state as a contract that a bad date fails
  "before any order is read". Only the method's control flow shows it: it returns
  before it reads the store.

=== FILE: decimal.dfy ===
/** Decimal text of natural numbers and left padding, as the order-id formatter
    uses them: `String(n)` on a non-negative integer and `padStart(width, '0')`. */
module Decimal {

  predicate IsDigit(c: char) {
    '0' <= c <= '9'
  }

  predicate AllDigits(s: string) {
    forall i :: 0 <= i < |s| ==> IsDigit(s[i])
  }

  function DigitValue(c: char): nat
    requires IsDigit(c)
  {
    c as int - '0' as int
  }

  function DigitChar(d: nat): (c: char)
    requires d < 10
    ensures IsDigit(c) && DigitValue(c) == d
  {
    ('0' as int + d) as char
  }

  function Pow10(k: nat): (p: nat)
    ensures p >= 1
  {
    if k == 0 then 1 else 10 * Pow10(k - 1)
  }

  /** The text `String(n)` produces for a non-negative integer: decimal digits,
      most significant first, with no sign and no leading zero. */
  function ToDecimal(n: nat): (s: string)
    ensures |s| >= 1 && AllDigits(s)
    ensures s[0] == '0' <==> n == 0
    ensures |s| > 1 ==> n >= 10
  {
    if n < 10 then [DigitChar(n)] else ToDecimal(n / 10) + [DigitChar(n % 10)]
  }

  /** The value of a string of decimal digits, leading zeros allowed; the
      reading that a parser of the serial part of an order id performs. */
  function DigitsValue(s: string): nat
    requires AllDigits(s)
  {
    if |s| == 0 then 0 else DigitsValue(s[..|s| - 1]) * 10 + DigitValue(s[|s| - 1])
  }

  /** A string made of k copies of c. */
  function Repeat(c: char, k: nat): (r: string)
    ensures |r| == k
    ensures forall i :: 0 <= i < k ==> r[i] == c
  {
    if k == 0 then [] else [c] + Repeat(c, k - 1)
  }

  /** `s.padStart(width, fill)` for a one-character fill: left-pads to the
      width and never truncates a string that is already as long. */
  function PadStart(s: string, width: nat, fill: char): (r: string)
    ensures |r| == if |s| >= width then |s| else width
    ensures r[|r| - |s|..] == s
    ensures forall i :: 0 <= i < |r| - |s| ==> r[i] == fill
  {
    if |s| >= width then s else Repeat(fill, width - |s|) + s
  }

  /** Reading back the decimal text of n gives n. */
  lemma {:induction false} DecimalRoundTrip(n: nat)
    ensures DigitsValue(ToDecimal(n)) == n
  {
    if n >= 10 {
      var t := ToDecimal(n / 10);
      var s := ToDecimal(n);
      assert s == t + [DigitChar(n % 10)];
      assert s[..|s| - 1] == t;
      DecimalRoundTrip(n / 10);
    }
  }

  /** The decimal text of n is injective in n. */
  lemma DecimalInjective(m: nat, n: nat)
    requires ToDecimal(m) == ToDecimal(n)
    ensures m == n
  {
    DecimalRoundTrip(m);
    DecimalRoundTrip(n);
  }

  /** The decimal text of n has at most k digits exactly when n < 10^k. */
  lemma {:induction false} DecimalFitsIn(n: nat, k: nat)
    requires k >= 1
    ensures |ToDecimal(n)| <= k <==> n < Pow10(k)
  {
    if n < 10 {
      assert Pow10(k) == 10 * Pow10(k - 1);
    } else if k == 1 {
      assert Pow10(1) == 10;
    } else {
      DecimalFitsIn(n / 10, k - 1);
      assert Pow10(k) == 10 * Pow10(k - 1);
      assert n == 10 * (n / 10) + n % 10;
    }
  }

  /** Zeros in front of a digit string do not change its value. */
  lemma {:induction false} LeadingZerosValue(z: string, s: string)
    requires forall i :: 0 <= i < |z| ==> z[i] == '0'
    requires AllDigits(s)
    ensures AllDigits(z + s)
    ensures DigitsValue(z + s) == DigitsValue(s)
  {
    if |s| == 0 {
      assert z + s == z;
      ZerosValue(z);
    } else {
      var u := z + s;
      assert u[..|u| - 1] == z + s[..|s| - 1];
      assert u[|u| - 1] == s[|s| - 1];
      LeadingZerosValue(z, s[..|s| - 1]);
    }
  }

  lemma {:induction false} ZerosValue(z: string)
    requires forall i :: 0 <= i < |z| ==> z[i] == '0'
    ensures AllDigits(z)
    ensures DigitsValue(z) == 0
  {
    if |z| > 0 {
      ZerosValue(z[..|z| - 1]);
    }
  }

  /** Zero-padding the decimal text of n keeps it a digit string whose value is n. */
  lemma PaddedDecimalValue(n: nat, width: nat)
    ensures AllDigits(PadStart(ToDecimal(n), width, '0'))
    ensures DigitsValue(PadStart(ToDecimal(n), width, '0')) == n
  {
    var s := ToDecimal(n);
    var r := PadStart(s, width, '0');
    DecimalRoundTrip(n);
    if |s| < width {
      LeadingZerosValue(Repeat('0', width - |s|), s);
    }
  }
}

=== FILE: lifecycle.dfy ===
/** How the order services compose: status changes and creation keep the store
    invariants, and the public lookup sees what they wrote. */
module Lifecycle {
  import opened Results
  import opened OrderIds
  import opened Orders
  import opened StatusChange
  import opened Tracking
  import opened Creation

  /** A status change leaves every tracking number in place, so it keeps
      them unique. */
  lemma StatusChangeKeepsTrackingUnique(store: Store, id: string, newStatus: string)
    requires TrackingNumbersUnique(store)
    ensures TrackingNumbersUnique(ChangeOrderStatus(store, id, newStatus).store)
  {
  }

  /** A status change leaves every order id in place, so they stay issued and distinct. */
  lemma StatusChangeKeepsOrderIds(store: Store, counters: DailyCounters, id: string, newStatus: string)
    requires IdsIssued(store, counters) && OrderIdsUnique(store)
    ensures var r := ChangeOrderStatus(store, id, newStatus);
      IdsIssued(r.store, counters) && OrderIdsUnique(r.store)
  {
    var r := ChangeOrderStatus(store, id, newStatus);
    if r.outcome.Ok? {
      assert forall i :: 0 <= i < |store| ==> r.store[i].orderId == store[i].orderId;
    }
  }

  /** Changing the status twice to the same value is the same as changing it once. */
  lemma StatusChangeIdempotent(store: Store, id: string, newStatus: string)
    ensures var once := ChangeOrderStatus(store, id, newStatus);
      ChangeOrderStatus(once.store, id, newStatus) == once
  {
    var once := ChangeOrderStatus(store, id, newStatus);
    if once.outcome.Ok? {
      var k := FindById(store, id).value;
      assert FindById(once.store, id) == Some(k) by {
        assert forall i :: 0 <= i < |store| ==> once.store[i].id == store[i].id;
      }
      var s := ParseStatus(newStatus).value;
      assert WithStatus(once.store[k].items, s) == once.store[k].items;
    }
  }

  /** After a successful status change, looking up any tracking number of the
      changed order shows the new status. */
  lemma LookupSeesNewStatus(store: Store, id: string, newStatus: string, j: nat)
    requires TrackingNumbersUnique(store)
    requires ChangeOrderStatus(store, id, newStatus).outcome.Ok?
    requires j < |ChangeOrderStatus(store, id, newStatus).outcome.value.items|
    ensures var r := ChangeOrderStatus(store, id, newStatus);
      var view := GetOrderByTrackingNumber(r.store, r.outcome.value.items[j].trackingNumber);
      && view.Ok?
      && StatusName(view.value.items[0].status) == newStatus
  {
  }

  /** After creation with fresh, pairwise distinct tokens, looking up the j-th
      token returns the new order with its j-th line item. */
  lemma LookupFindsCreatedItem(store: Store, counters: DailyCounters, now: CalendarDate,
                               payload: Order, tokens: seq<string>, j: nat)
    requires |tokens| == |payload.items| && j < |tokens|
    requires TrackingNumbersUnique(store)
    requires forall j1, j2 :: 0 <= j1 < j2 < |tokens| ==> tokens[j1] != tokens[j2]
    requires forall j', i :: 0 <= j' < |tokens| && 0 <= i < |store| ==> !HasTracking(store[i], tokens[j'])
    ensures var r := CreateOrder(store, counters, now, payload, tokens);
      GetOrderByTrackingNumber(r.store, tokens[j]) == Ok(ViewOf(r.order, r.order.items[j]))
  {
    var r := CreateOrder(store, counters, now, payload, tokens);
    CreatePreservesTrackingUnique(store, counters, now, payload, tokens);
    assert r.store[|store|] == r.order;
    LookupFindsTheHolder(r.store, |store|, j);
  }
}

=== FILE: order_create.dfy ===
/** `createOrderIntoDB`: allocate the readable order id, give every line item a
    fresh tracking number, and append the order to the store. */
module Creation {
  import opened Results
  import opened Decimal
  import opened OrderIds
  import opened Orders

  /** The line items with the i-th tracking number taken from the i-th token
      (`order.trackingNumber = nanoid()`, tokens supplied in call order). */
  function AssignTracking(items: seq<LineItem>, tokens: seq<string>): (r: seq<LineItem>)
    requires |tokens| == |items|
    ensures |r| == |items|
    ensures forall j :: 0 <= j < |r| ==> r[j].trackingNumber == tokens[j]
    ensures forall j :: 0 <= j < |r| ==> r[j].(trackingNumber := items[j].trackingNumber) == items[j]
  {
    seq(|items|, j requires 0 <= j < |items| => items[j].(trackingNumber := tokens[j]))
  }

  /** The store and counters after creation, and the order as persisted. */
  datatype Created = Created(store: Store, counters: DailyCounters, order: Order)

  /** The service. `now` is the allocator's clock reading and `tokens` the
      tracking numbers the token generator hands out, one per line item. */
  function CreateOrder(store: Store, counters: DailyCounters, now: CalendarDate,
                       payload: Order, tokens: seq<string>): (r: Created)
    requires |tokens| == |payload.items|
    ensures r.store == store + [r.order]
    ensures r.counters == GenerateOrderId(counters, now).counters
    ensures ParseOrderId(r.order.orderId) == Some((DateKey(now), CountOf(counters, DateKey(now)) + 1))
    ensures r.order.orderId == GenerateOrderId(counters, now).orderId
    ensures |r.order.items| == |payload.items|
    ensures forall j :: 0 <= j < |r.order.items| ==> r.order.items[j].trackingNumber == tokens[j]
    ensures forall j :: 0 <= j < |r.order.items| ==>
      r.order.items[j].(trackingNumber := payload.items[j].trackingNumber) == payload.items[j]
    ensures r.order == payload.(orderId := r.order.orderId, items := r.order.items)
  {
    var g := GenerateOrderId(counters, now);
    var order := payload.(orderId := g.orderId, items := AssignTracking(payload.items, tokens));
    Created(store + [order], g.counters, order)
  }

  /** Every stored order id parses to a date key and a count that the key's
      counter has already reached. */
  ghost predicate IdsIssued(store: Store, counters: DailyCounters) {
    forall i :: 0 <= i < |store| ==>
      && ParseOrderId(store[i].orderId).Some?
      && 1 <= ParseOrderId(store[i].orderId).value.1
      && ParseOrderId(store[i].orderId).value.1 <= CountOf(counters, ParseOrderId(store[i].orderId).value.0)
  }

  /** No two stored orders share an order id. */
  ghost predicate OrderIdsUnique(store: Store) {
    forall i1, i2 :: 0 <= i1 < |store| && 0 <= i2 < |store| && i1 != i2 ==>
      store[i1].orderId != store[i2].orderId
  }

  /** The counters never go down from `before` to `after`. */
  ghost predicate CountersGrow(before: DailyCounters, after: DailyCounters) {
    forall k :: k in before ==> CountOf(before, k) <= CountOf(after, k)
  }

  /** Appending an order whose id carries a count above its day's old counter,
      but not above the new one, keeps every order id issued and distinct. */
  lemma AppendFreshId(store: Store, before: DailyCounters, after: DailyCounters, order: Order)
    requires IdsIssued(store, before) && OrderIdsUnique(store)
    requires CountersGrow(before, after)
    requires ParseOrderId(order.orderId).Some?
    requires var p := ParseOrderId(order.orderId).value;
      CountOf(before, p.0) < p.1 <= CountOf(after, p.0)
    ensures IdsIssued(store + [order], after) && OrderIdsUnique(store + [order])
  {
  }

  /** Creation keeps every order id issued and distinct: the new id carries a
      count above anything its day's counter had issued before. */
  lemma CreatePreservesOrderIds(store: Store, counters: DailyCounters, now: CalendarDate,
                                payload: Order, tokens: seq<string>)
    requires |tokens| == |payload.items|
    requires IdsIssued(store, counters) && OrderIdsUnique(store)
    ensures var r := CreateOrder(store, counters, now, payload, tokens);
      IdsIssued(r.store, r.counters) && OrderIdsUnique(r.store)
  {
    var r := CreateOrder(store, counters, now, payload, tokens);
    AppendFreshId(store, counters, r.counters, r.order);
  }

  /** Appending an order whose tracking numbers are pairwise distinct and
      unused keeps tracking numbers unique. */
  lemma AppendFreshTracking(store: Store, order: Order)
    requires TrackingNumbersUnique(store)
    requires forall j1, j2 :: 0 <= j1 < j2 < |order.items| ==>
      order.items[j1].trackingNumber != order.items[j2].trackingNumber
    requires forall j, i :: 0 <= j < |order.items| && 0 <= i < |store| ==>
      !HasTracking(store[i], order.items[j].trackingNumber)
    ensures TrackingNumbersUnique(store + [order])
  {
  }

  /** Appending an order whose line items carry pairwise distinct, unused
      tokens keeps tracking numbers unique. */
  lemma AppendTokens(store: Store, order: Order, tokens: seq<string>)
    requires |tokens| == |order.items|
    requires forall j :: 0 <= j < |tokens| ==> order.items[j].trackingNumber == tokens[j]
    requires TrackingNumbersUnique(store)
    requires forall j1, j2 :: 0 <= j1 < j2 < |tokens| ==> tokens[j1] != tokens[j2]
    requires forall j, i :: 0 <= j < |tokens| && 0 <= i < |store| ==> !HasTracking(store[i], tokens[j])
    ensures TrackingNumbersUnique(store + [order])
  {
    AppendFreshTracking(store, order);
  }

  /** Creation with tokens that are pairwise distinct and unused keeps
      tracking numbers unique. */
  lemma CreatePreservesTrackingUnique(store: Store, counters: DailyCounters, now: CalendarDate,
                                      payload: Order, tokens: seq<string>)
    requires |tokens| == |payload.items|
    requires TrackingNumbersUnique(store)
    requires forall j1, j2 :: 0 <= j1 < j2 < |tokens| ==> tokens[j1] != tokens[j2]
    requires forall j, i :: 0 <= j < |tokens| && 0 <= i < |store| ==> !HasTracking(store[i], tokens[j])
    ensures TrackingNumbersUnique(CreateOrder(store, counters, now, payload, tokens).store)
  {
    var r := CreateOrder(store, counters, now, payload, tokens);
    AppendTokens(store, r.order, tokens);
  }
}

=== FILE: order_id.dfy ===
/** The order-id allocator: a `YYYYMMDD` key for the current day, a per-day
    counter bumped by an upsert that starts at 1, and the id `key-serial` with
    the serial zero-padded to at least four digits. */
module OrderIds {
  import opened Results
  import opened Decimal

  /** The local calendar date the allocator reads from its clock. */
  datatype CalendarDate = CalendarDate(year: nat, month: nat, day: nat) {
    /** What the clock guarantees: `getMonth() + 1` is in 1..12 and `getDate()` in 1..31. */
    predicate Valid() {
      1 <= month <= 12 && 1 <= day <= 31
    }
  }

  /** A month or day number as `String(n).padStart(2, '0')` writes it. */
  function TwoDigits(n: nat): (s: string)
    ensures AllDigits(s) && DigitsValue(s) == n
    ensures n < 100 ==> |s| == 2
  {
    PaddedDecimalValue(n, 2);
    DecimalFitsIn(n, 2);
    PadStart(ToDecimal(n), 2, '0')
  }

  /** The counter key of a day: the unpadded year, then the two-digit month and day. */
  function DateKey(d: CalendarDate): (key: string)
    ensures AllDigits(key)
  {
    ToDecimal(d.year) + TwoDigits(d.month) + TwoDigits(d.day)
  }

  /** Reads a date key back: the last four digits are month and day, the rest is the year. */
  function ParseDateKey(key: string): (r: Option<CalendarDate>)
    ensures r.Some? ==> |key| >= 5
  {
    if |key| >= 5 && AllDigits(key) then
      Some(CalendarDate(DigitsValue(key[..|key| - 4]),
                        DigitsValue(key[|key| - 4..|key| - 2]),
                        DigitsValue(key[|key| - 2..])))
    else
      None
  }

  /** Every valid day has a date key that reads back as that day; so two valid
      days share a key only if they are the same day. */
  lemma DateKeyRoundTrip(d: CalendarDate)
    requires d.Valid()
    ensures ParseDateKey(DateKey(d)) == Some(d)
  {
    var y := ToDecimal(d.year);
    var m := TwoDigits(d.month);
    var dd := TwoDigits(d.day);
    ParseJoinedKey(y, m, dd);
    DecimalRoundTrip(d.year);
  }

  /** A key joined from a year, a two-digit month and a two-digit day reads back as those parts. */
  lemma ParseJoinedKey(y: string, m: string, dd: string)
    requires |y| >= 1 && AllDigits(y)
    requires |m| == 2 && AllDigits(m)
    requires |dd| == 2 && AllDigits(dd)
    ensures ParseDateKey(y + m + dd) == Some(CalendarDate(DigitsValue(y), DigitsValue(m), DigitsValue(dd)))
  {
    var key := y + m + dd;
    assert AllDigits(key) by {
      forall i | 0 <= i < |key| ensures IsDigit(key[i]) {
        if i < |y| {
          assert key[i] == y[i];
        } else if i < |y| + 2 {
          assert key[i] == m[i - |y|];
        } else {
          assert key[i] == dd[i - |y| - 2];
        }
      }
    }
    assert key[..|key| - 4] == y;
    assert key[|key| - 4..|key| - 2] == m;
    assert key[|key| - 2..] == dd;
  }

  lemma DateKeyInjective(d1: CalendarDate, d2: CalendarDate)
    requires d1.Valid() && d2.Valid()
    ensures d1 != d2 ==> DateKey(d1) != DateKey(d2)
  {
    DateKeyRoundTrip(d1);
    DateKeyRoundTrip(d2);
  }

  /** The serial part of an id: the count's decimal text, left-padded with
      '0' to four characters and never cut. */
  function Serial(count: nat): (s: string)
    ensures |s| >= 4 && AllDigits(s)
    ensures |s| >= |ToDecimal(count)|
    ensures s[|s| - |ToDecimal(count)|..] == ToDecimal(count)
    ensures DigitsValue(s) == count
    ensures count >= 1000 ==> s == ToDecimal(count)
    ensures |s| == if |ToDecimal(count)| >= 4 then |ToDecimal(count)| else 4
  {
    PaddedDecimalValue(count, 4);
    DecimalFitsIn(count, 3);
    PadStart(ToDecimal(count), 4, '0')
  }

  /** The serial stays at four digits up to 9999 orders a day and grows only beyond. */
  lemma SerialWidth(count: nat)
    ensures |Serial(count)| == 4 <==> count < 10000
  {
    DecimalFitsIn(count, 4);
    assert Pow10(4) == 10000 by {
      assert Pow10(1) == 10;
    }
  }

  /** The id `${dateKey}-${serialNumber}`. */
  function FormatOrderId(key: string, count: nat): (id: string)
    ensures |id| == |key| + 1 + if |ToDecimal(count)| >= 4 then |ToDecimal(count)| else 4
    ensures id[..|key|] == key && id[|key|] == '-'
    ensures AllDigits(key) ==> ParseOrderId(id) == Some((key, count))
  {
    assert AllDigits(key) ==> ParseOrderId(key + "-" + Serial(count)) == Some((key, count)) by {
      if AllDigits(key) {
        ParseJoinedId(key, Serial(count));
      }
    }
    key + "-" + Serial(count)
  }

  /** The position of the first '-' in s. */
  function IndexOfDash(s: string): (r: Option<nat>)
    ensures r.Some? ==> r.value < |s| && s[r.value] == '-'
    ensures r.Some? ==> forall j :: 0 <= j < r.value ==> s[j] != '-'
    ensures r.None? ==> forall j :: 0 <= j < |s| ==> s[j] != '-'
  {
    if |s| == 0 then None
    else if s[0] == '-' then Some(0)
    else match IndexOfDash(s[1..])
      case None => None
      case Some(i) => Some(i + 1)
  }

  /** Splits an id at its first '-' into a digit key and the value of a digit serial. */
  function ParseOrderId(id: string): Option<(string, nat)> {
    match IndexOfDash(id)
    case None => None
    case Some(i) =>
      var key := id[..i];
      var serial := id[i + 1..];
      if AllDigits(key) && |serial| >= 1 && AllDigits(serial) then
        Some((key, DigitsValue(serial)))
      else
        None
  }

  /** Parsing a formatted id gives back its date key and its count. */
  lemma OrderIdRoundTrip(key: string, count: nat)
    requires AllDigits(key)
    ensures ParseOrderId(FormatOrderId(key, count)) == Some((key, count))
  {
    ParseJoinedId(key, Serial(count));
  }

  /** An id joined from a digit key and a digit serial reads back as the key and the serial's value. */
  lemma ParseJoinedId(key: string, serial: string)
    requires AllDigits(key)
    requires |serial| >= 1 && AllDigits(serial)
    ensures ParseOrderId(key + "-" + serial) == Some((key, DigitsValue(serial)))
  {
    var id := key + "-" + serial;
    FirstDashAfterDigits(key, serial);
    assert id[..|key|] == key;
    assert id[|key| + 1..] == serial;
  }

  /** The first '-' after a digit prefix is the one right after it. */
  lemma {:induction false} FirstDashAfterDigits(key: string, rest: string)
    requires AllDigits(key)
    ensures IndexOfDash(key + "-" + rest) == Some(|key|)
  {
    if |key| > 0 {
      var s := key + "-" + rest;
      assert s[0] == key[0];
      assert s[1..] == key[1..] + "-" + rest;
      FirstDashAfterDigits(key[1..], rest);
    }
  }

  /** Two ids with digit keys are equal only when their keys and counts are. */
  lemma OrderIdInjective(k1: string, n1: nat, k2: string, n2: nat)
    requires AllDigits(k1) && AllDigits(k2)
    requires FormatOrderId(k1, n1) == FormatOrderId(k2, n2)
    ensures k1 == k2 && n1 == n2
  {
    OrderIdRoundTrip(k1, n1);
    OrderIdRoundTrip(k2, n2);
  }

  /** The counter collection: one count per date key. */
  type DailyCounters = map<string, nat>

  /** The stored count of a key, 0 when the key has no record yet. */
  function CountOf(counters: DailyCounters, key: string): nat {
    if key in counters then counters[key] else 0
  }

  /** The counters after an allocation and the count it read back. */
  datatype Allocation = Allocation(counters: DailyCounters, count: nat)

  /** `findOneAndUpdate({date: key}, {$inc: {count: 1}}, {upsert: true, new: true})`. */
  function Increment(counters: DailyCounters, key: string): (a: Allocation)
    ensures key in a.counters && a.count == a.counters[key]
    ensures a.count == CountOf(counters, key) + 1
    ensures a.counters.Keys == counters.Keys + {key}
    ensures forall k :: k in counters && k != key ==> a.counters[k] == counters[k]
  {
    var n := CountOf(counters, key) + 1;
    Allocation(counters[key := n], n)
  }

  /** The counters after `generateOrderId` and the id it returns. */
  datatype Generated = Generated(counters: DailyCounters, orderId: string)

  /** `generateOrderId`: bump today's counter and format the id from the new count. */
  function GenerateOrderId(counters: DailyCounters, now: CalendarDate): (g: Generated)
    ensures var key := DateKey(now);
      && key in g.counters
      && g.counters[key] == CountOf(counters, key) + 1
      && ParseOrderId(g.orderId) == Some((key, g.counters[key]))
      && g.orderId == key + "-" + Serial(g.counters[key])
    ensures forall k :: k in counters && k != DateKey(now) ==> k in g.counters && g.counters[k] == counters[k]
    ensures g.counters.Keys == counters.Keys + {DateKey(now)}
  {
    var key := DateKey(now);
    var a := Increment(counters, key);
    OrderIdRoundTrip(key, a.count);
    Generated(a.counters, FormatOrderId(key, a.count))
  }

  /** The id of a valid day's allocation names that day and the count it took. */
  lemma GeneratedIdNamesDay(counters: DailyCounters, now: CalendarDate)
    requires now.Valid()
    ensures var g := GenerateOrderId(counters, now);
      && ParseOrderId(g.orderId).Some?
      && ParseDateKey(ParseOrderId(g.orderId).value.0) == Some(now)
      && ParseOrderId(g.orderId).value.1 == CountOf(counters, DateKey(now)) + 1
  {
    DateKeyRoundTrip(now);
  }

  /** Two successive allocations give distinct ids, whichever days they are for. */
  lemma SuccessiveIdsDistinct(counters: DailyCounters, d1: CalendarDate, d2: CalendarDate)
    ensures var g1 := GenerateOrderId(counters, d1);
      GenerateOrderId(g1.counters, d2).orderId != g1.orderId
  {
  }
}

=== FILE: order_status.dfy ===
/** `changeOrderStatusInDB`: validate the requested status against the closed
    list, then overwrite the status of every line item of one order. */
module StatusChange {
  import opened Results
  import opened Orders

  /** The store after a service call and what the call returned or raised. */
  datatype Step<+T> = Step(store: Store, outcome: Result<T>)

  /** The line items with every status overwritten (`"orderInfo.$[].status"`). */
  function WithStatus(items: seq<LineItem>, s: Status): (r: seq<LineItem>)
    ensures |r| == |items|
    ensures forall j :: 0 <= j < |r| ==> r[j].status == s
    ensures forall j :: 0 <= j < |r| ==> r[j].(status := items[j].status) == items[j]
  {
    seq(|items|, j requires 0 <= j < |items| => items[j].(status := s))
  }

  /** The service: BadRequest for a status outside the list, NotFound for an
      unknown `_id`, otherwise the updated order, as stored. */
  function ChangeOrderStatus(store: Store, id: string, newStatus: string): (r: Step<Order>)
    ensures newStatus !in ValidStatusNames ==> r == Step(store, Err(BadRequest))
    ensures newStatus in ValidStatusNames && (forall i :: 0 <= i < |store| ==> store[i].id != id)
      ==> r == Step(store, Err(NotFound))
    ensures r.outcome.Ok? <==>
      newStatus in ValidStatusNames && exists i :: 0 <= i < |store| && store[i].id == id
    ensures r.outcome.Ok? ==>
      var k := FindById(store, id).value;
      && |r.store| == |store|
      && r.outcome.value == r.store[k]
      && (forall j :: 0 <= j < |r.store[k].items| ==> StatusName(r.store[k].items[j].status) == newStatus)
      && |r.store[k].items| == |store[k].items|
      && r.store[k] == store[k].(items := r.store[k].items)
      && (forall j :: 0 <= j < |store[k].items| ==>
            r.store[k].items[j] == store[k].items[j].(status := r.store[k].items[j].status))
      && (forall i :: 0 <= i < |store| && i != k ==> r.store[i] == store[i])
  {
    match ParseStatus(newStatus)
    case None => Step(store, Err(BadRequest))
    case Some(s) =>
      match FindById(store, id)
      case None => Step(store, Err(NotFound))
      case Some(k) =>
        var updated := store[k].(items := WithStatus(store[k].items, s));
        Step(store[k := updated], Ok(updated))
  }
}

=== FILE: order_summary.dfy ===
/** `getOrderSummaryFromDB` and `getOrderRangeSummaryFromDB`: count the orders
    scanned and, classifying each order by the status of its first line item,
    count and total the pending and the completed ones. */
module Summaries {
  import opened Results
  import opened Orders

  /** The figures both summary services return (amounts in cents). */
  datatype Summary = Summary(
    totalOrders: nat,
    totalPendingOrders: nat,
    totalCompletedOrders: nat,
    totalPendingAmount: int,
    totalCompletedAmount: int)

  /** The status taken to stand for the whole order: that of its first line
      item, and none for an order without line items. */
  function FirstStatus(o: Order): (r: Option<Status>)
    ensures r.Some? <==> |o.items| > 0
  {
    if |o.items| > 0 then Some(o.items[0].status) else None
  }

  /** `order.totalAmount || 0`: a missing amount counts as zero. */
  function AmountOrZero(o: Order): (r: int)
    ensures o.totalAmount.None? ==> r == 0
    ensures o.totalAmount.Some? ==> r == o.totalAmount.value
  {
    match o.totalAmount
    case None => 0
    case Some(a) => a
  }

  /** Reference count: the orders whose first line item has status s. */
  function CountWith(orders: seq<Order>, s: Status): nat {
    if |orders| == 0 then 0
    else CountWith(orders[..|orders| - 1], s) + (if FirstStatus(orders[|orders| - 1]) == Some(s) then 1 else 0)
  }

  /** Reference total: the amounts of the orders whose first line item has status s. */
  function SumWith(orders: seq<Order>, s: Status): int {
    if |orders| == 0 then 0
    else SumWith(orders[..|orders| - 1], s) + (if FirstStatus(orders[|orders| - 1]) == Some(s) then AmountOrZero(orders[|orders| - 1]) else 0)
  }

  /** The summary the services promise for a list of orders. */
  function SummaryOf(orders: seq<Order>): Summary {
    Summary(|orders|, CountWith(orders, Pending), CountWith(orders, Completed),
            SumWith(orders, Pending), SumWith(orders, Completed))
  }

  /** The `forEach` accumulation shared by both services. */
  method Summarize(orders: seq<Order>) returns (r: Summary)
    ensures r == SummaryOf(orders)
    ensures r.totalPendingOrders + r.totalCompletedOrders <= r.totalOrders
  {
    var pending, completed := 0, 0;
    var pendingAmount, completedAmount := 0, 0;
    var i := 0;
    while i < |orders|
      invariant 0 <= i <= |orders|
      invariant pending == CountWith(orders[..i], Pending)
      invariant completed == CountWith(orders[..i], Completed)
      invariant pendingAmount == SumWith(orders[..i], Pending)
      invariant completedAmount == SumWith(orders[..i], Completed)
    {
      assert orders[..i + 1][..i] == orders[..i];
      var order := orders[i];
      if |order.items| > 0 {
        var status := order.items[0].status;
        var total := AmountOrZero(order);
        if status == Pending {
          pending := pending + 1;
          pendingAmount := pendingAmount + total;
        } else if status == Completed {
          completed := completed + 1;
          completedAmount := completedAmount + total;
        }
      }
      i := i + 1;
    }
    assert orders[..i] == orders;
    BucketsBounded(orders);
    r := Summary(|orders|, pending, completed, pendingAmount, completedAmount);
  }

  /** An order is counted in at most one bucket, so the buckets never exceed the total. */
  lemma {:induction false} BucketsBounded(orders: seq<Order>)
    ensures CountWith(orders, Pending) + CountWith(orders, Completed) <= |orders|
  {
    if |orders| > 0 {
      BucketsBounded(orders[..|orders| - 1]);
    }
  }

  /** The indices of the orders whose first line item has status s. */
  ghost function IndicesWith(orders: seq<Order>, s: Status): set<int> {
    set i | 0 <= i < |orders| && FirstStatus(orders[i]) == Some(s)
  }

  /** The reference count is the number of orders in that bucket: an order
      is counted exactly when it has a first line item with that status. */
  lemma {:induction false} CountIsBucketSize(orders: seq<Order>, s: Status)
    ensures CountWith(orders, s) == |IndicesWith(orders, s)|
  {
    if |orders| > 0 {
      var n := |orders| - 1;
      CountIsBucketSize(orders[..n], s);
      IndicesOfLonger(orders, s);
      assert n !in IndicesWith(orders[..n], s);
    }
  }

  /** The bucket of a list is the bucket of all but its last order, plus the last if it belongs. */
  lemma IndicesOfLonger(orders: seq<Order>, s: Status)
    requires |orders| > 0
    ensures var n := |orders| - 1;
      IndicesWith(orders, s)
        == IndicesWith(orders[..n], s) + (if FirstStatus(orders[n]) == Some(s) then {n} else {})
  {
  }

  /** Summing two batches of orders separately and adding gives the summary of both. */
  function Add(a: Summary, b: Summary): Summary {
    Summary(a.totalOrders + b.totalOrders,
            a.totalPendingOrders + b.totalPendingOrders,
            a.totalCompletedOrders + b.totalCompletedOrders,
            a.totalPendingAmount + b.totalPendingAmount,
            a.totalCompletedAmount + b.totalCompletedAmount)
  }

  lemma SummaryOfAppend(a: seq<Order>, b: seq<Order>)
    ensures SummaryOf(a + b) == Add(SummaryOf(a), SummaryOf(b))
  {
    CountAppend(a, b, Pending);
    CountAppend(a, b, Completed);
    var whole, sum := SummaryOf(a + b), Add(SummaryOf(a), SummaryOf(b));
    assert whole.totalOrders == sum.totalOrders;
    assert whole.totalPendingOrders == sum.totalPendingOrders;
    assert whole.totalCompletedOrders == sum.totalCompletedOrders;
    assert whole.totalPendingAmount == sum.totalPendingAmount;
    assert whole.totalCompletedAmount == sum.totalCompletedAmount;
  }

  lemma {:induction false} CountAppend(a: seq<Order>, b: seq<Order>, s: Status)
    ensures CountWith(a + b, s) == CountWith(a, s) + CountWith(b, s)
    ensures SumWith(a + b, s) == SumWith(a, s) + SumWith(b, s)
  {
    if |b| == 0 {
      assert a + b == a;
    } else {
      var ab := a + b;
      assert ab[..|ab| - 1] == a + b[..|b| - 1];
      assert ab[|ab| - 1] == b[|b| - 1];
      CountAppend(a, b[..|b| - 1], s);
    }
  }

  /** Milliseconds in a day. */
  const MsPerDay: int := 86400000

  /** `end.setHours(23, 59, 59, 999)`: the last millisecond of the day of t. */
  function EndOfDay(t: int): (r: int)
    ensures r / MsPerDay == t / MsPerDay
    ensures r % MsPerDay == MsPerDay - 1
    ensures t <= r
  {
    (t / MsPerDay) * MsPerDay + (MsPerDay - 1)
  }

  /** A time is at or before the end of a day exactly when its day is not later. */
  lemma WithinEndDay(t: int, end: int)
    ensures t <= EndOfDay(end) <==> t / MsPerDay <= end / MsPerDay
  {
  }

  /** `find({createdAt: {$gte: lo, $lte: hi}})`: the orders created in [lo, hi], in store order. */
  function InWindow(orders: seq<Order>, lo: int, hi: int): (r: seq<Order>)
    ensures |r| <= |orders|
    ensures forall o :: o in r <==> o in orders && lo <= o.createdAt <= hi
    ensures forall o :: multiset(r)[o] == if lo <= o.createdAt <= hi then multiset(orders)[o] else 0
  {
    if |orders| == 0 then []
    else
      var rest := InWindow(orders[1..], lo, hi);
      assert orders == [orders[0]] + orders[1..];
      assert multiset(orders) == multiset{orders[0]} + multiset(orders[1..]);
      if lo <= orders[0].createdAt <= hi then [orders[0]] + rest else rest
  }

  /** The range service's answer: the summary and the two days of the window. */
  datatype RangeReport = RangeReport(summary: Summary, startDay: int, endDay: int)

  /** The largest distance from the epoch, in milliseconds, that a date may
      lie (section 21.4.1.31 of ECMA-262, TimeClip); beyond it a date is invalid. */
  const MaxTimeValue: int := 8640000000000000

  /** True when a time value denotes a valid date rather than an invalid one. */
  predicate IsValidTime(t: int) {
    -MaxTimeValue <= t <= MaxTimeValue
  }

  /** A parsed date that is present and valid. */
  predicate IsValidDate(d: Option<int>) {
    d.Some? && IsValidTime(d.value)
  }

  /** `getOrderRangeSummaryFromDB`, with the two date strings already parsed
      (None stands for a string that parses to an invalid date). The end date
      is invalid too when its end of day leaves the range of valid dates. */
  method OrderRangeSummary(store: Store, start: Option<int>, end: Option<int>) returns (r: Result<RangeReport>)
    ensures r.Err? <==> !IsValidDate(start) || !IsValidDate(end) || !IsValidTime(EndOfDay(end.value))
    ensures r.Err? ==> r.error == BadRequest
    ensures r.Ok? ==>
      && r.value.summary == SummaryOf(InWindow(store, start.value, EndOfDay(end.value)))
      && r.value.summary.totalPendingOrders + r.value.summary.totalCompletedOrders <= r.value.summary.totalOrders
      && r.value.startDay == start.value / MsPerDay
      && r.value.endDay == end.value / MsPerDay
  {
    if !IsValidDate(start) || !IsValidDate(end) || !IsValidTime(EndOfDay(end.value)) {
      return Err(BadRequest);
    }
    var lo := start.value;
    var hi := EndOfDay(end.value);
    var orders := InWindow(store, lo, hi);
    var s := Summarize(orders);
    r := Ok(RangeReport(s, lo / MsPerDay, hi / MsPerDay));
  }

  /** The last valid day cannot serve as an end date: its end of day is past
      the largest valid time, so the service raises BadRequest. */
  lemma LastDayEndIsInvalid()
    ensures IsValidTime(MaxTimeValue)
    ensures !IsValidTime(EndOfDay(MaxTimeValue))
  {
  }

  /** A start after the end of the end day selects nothing: the summary is all zeros. */
  lemma InvertedWindowIsEmpty(store: Store, start: int, end: int)
    requires start > EndOfDay(end)
    ensures SummaryOf(InWindow(store, start, EndOfDay(end))) == Summary(0, 0, 0, 0, 0)
  {
  }

  /** A single order lands in the bucket of its first line item's status, with its amount. */
  lemma SingleOrderSummary(o: Order)
    ensures var st := FirstStatus(o);
      SummaryOf([o]) == Summary(1,
        if st == Some(Pending) then 1 else 0,
        if st == Some(Completed) then 1 else 0,
        if st == Some(Pending) then AmountOrZero(o) else 0,
        if st == Some(Completed) then AmountOrZero(o) else 0)
  {
    assert [o][..0] == [];
    assert CountWith([o], Pending) == (if FirstStatus(o) == Some(Pending) then 1 else 0);
    assert CountWith([o], Completed) == (if FirstStatus(o) == Some(Completed) then 1 else 0);
    assert SumWith([o], Pending) == (if FirstStatus(o) == Some(Pending) then AmountOrZero(o) else 0);
    assert SumWith([o], Completed) == (if FirstStatus(o) == Some(Completed) then AmountOrZero(o) else 0);
  }

  /** The fixture of two pending orders totalling 150.00 and one completed order of 75.00. */
  lemma ThreeOrderFixture(p1: Order, p2: Order, c: Order)
    requires FirstStatus(p1) == Some(Pending) && p1.totalAmount == Some(10000)
    requires FirstStatus(p2) == Some(Pending) && p2.totalAmount == Some(5000)
    requires FirstStatus(c) == Some(Completed) && c.totalAmount == Some(7500)
    ensures SummaryOf([p1, p2, c]) == Summary(3, 2, 1, 15000, 7500)
  {
    var one, two, three := [p1], [p1, p2], [p1, p2, c];
    assert one[..0] == [] && two[..1] == one && three[..2] == two;
    assert one[0] == p1 && two[1] == p2 && three[2] == c;
    assert FirstStatus(p1) != Some(Completed) && FirstStatus(p2) != Some(Completed);
    assert FirstStatus(c) != Some(Pending);
    assert CountWith(one, Pending) == 1 && SumWith(one, Pending) == 10000;
    assert SumWith(one, Completed) == SumWith(one[..0], Completed);
    assert CountWith(one, Completed) == 0 && SumWith(one, Completed) == 0;
    assert CountWith(two, Pending) == 2 && SumWith(two, Pending) == 15000;
    assert CountWith(two, Completed) == 0 && SumWith(two, Completed) == 0;
    assert CountWith(three, Pending) == 2 && SumWith(three, Pending) == 15000;
    assert CountWith(three, Completed) == 1 && SumWith(three, Completed) == 7500;
  }
}

=== FILE: order_tracking.dfy ===
/** `getOrderByTrackingNumberFromDB`: the public lookup that returns the order
    holding a tracking number with `orderInfo` cut down to the matching item. */
module Tracking {
  import opened Results
  import opened Orders

  /** The response: the order's fields the lookup keeps, with one line item. */
  datatype TrackingView = TrackingView(
    id: string,
    items: seq<LineItem>,
    customerInfo: string,
    paymentInfo: string,
    totalAmount: Option<int>,
    createdAt: int)

  /** The response built from an order and the one line item it keeps. */
  function ViewOf(o: Order, item: LineItem): (v: TrackingView)
    ensures v.items == [item]
    ensures v.id == o.id && v.customerInfo == o.customerInfo && v.paymentInfo == o.paymentInfo
    ensures v.totalAmount == o.totalAmount && v.createdAt == o.createdAt
  {
    TrackingView(o.id, [item], o.customerInfo, o.paymentInfo, o.totalAmount, o.createdAt)
  }

  /** `findOne({"orderInfo.trackingNumber": trackingNumber})`: the position
      of the first order with a line item carrying the tracking number. */
  function OrderIndexByTracking(store: Store, trackingNumber: string): (r: Option<nat>)
    ensures r.Some? ==> r.value < |store| && HasTracking(store[r.value], trackingNumber)
    ensures r.Some? ==> forall i :: 0 <= i < r.value ==> !HasTracking(store[i], trackingNumber)
    ensures r.None? ==> forall i :: 0 <= i < |store| ==> !HasTracking(store[i], trackingNumber)
  {
    if |store| == 0 then None
    else if ItemIndex(store[0].items, trackingNumber).Some? then Some(0)
    else match OrderIndexByTracking(store[1..], trackingNumber)
      case None => None
      case Some(i) => Some(i + 1)
  }

  /** The lookup: NotFound when no order holds the tracking number, otherwise
      the holding order reduced to its matching line item. */
  function GetOrderByTrackingNumber(store: Store, trackingNumber: string): (r: Result<TrackingView>)
    ensures r.Err? ==> r.error == NotFound
    ensures r.Ok? <==> exists i :: 0 <= i < |store| && HasTracking(store[i], trackingNumber)
    ensures r.Ok? ==> |r.value.items| == 1 && r.value.items[0].trackingNumber == trackingNumber
    ensures r.Ok? ==> exists i, j ::
      && 0 <= i < |store| && 0 <= j < |store[i].items|
      && store[i].items[j].trackingNumber == trackingNumber
      && r.value == ViewOf(store[i], store[i].items[j])
  {
    match OrderIndexByTracking(store, trackingNumber)
    case None => Err(NotFound)
    case Some(i) =>
      match ItemIndex(store[i].items, trackingNumber)
      case None => Err(NotFound)
      case Some(j) => Ok(ViewOf(store[i], store[i].items[j]))
  }

  /** When tracking numbers are unique, the lookup returns the one order and
      line item that carry the number. */
  lemma LookupFindsTheHolder(store: Store, i: nat, j: nat)
    requires TrackingNumbersUnique(store)
    requires i < |store| && j < |store[i].items|
    ensures GetOrderByTrackingNumber(store, store[i].items[j].trackingNumber)
      == Ok(ViewOf(store[i], store[i].items[j]))
  {
  }
}

=== FILE: orders.dfy ===
/** The order documents the lifecycle services read and write, and the
    in-memory store that stands for the order collection. */
module Orders {
  import opened Results

  /** The closed set of line-item statuses. */
  datatype Status = Pending | Processing | AtLocalFacility | OutForDelivery | Cancelled | Completed

  /** The text the status is stored and sent as. */
  function StatusName(s: Status): string {
    match s
    case Pending => "pending"
    case Processing => "processing"
    case AtLocalFacility => "at-local-facility"
    case OutForDelivery => "out-for-delivery"
    case Cancelled => "cancelled"
    case Completed => "completed"
  }

  /** The list `validStatuses` a requested status is checked against. */
  const ValidStatusNames: seq<string> :=
    ["pending", "processing", "at-local-facility", "out-for-delivery", "cancelled", "completed"]

  /** `validStatuses.includes(name)`, returning the status the name denotes. */
  function ParseStatus(name: string): (r: Option<Status>)
    ensures r.Some? <==> name in ValidStatusNames
    ensures r.Some? ==> StatusName(r.value) == name
  {
    if name == "pending" then Some(Pending)
    else if name == "processing" then Some(Processing)
    else if name == "at-local-facility" then Some(AtLocalFacility)
    else if name == "out-for-delivery" then Some(OutForDelivery)
    else if name == "cancelled" then Some(Cancelled)
    else if name == "completed" then Some(Completed)
    else None
  }

  /** Every status is accepted under its own name. */
  lemma StatusNameRoundTrip(s: Status)
    ensures ParseStatus(StatusName(s)) == Some(s)
  {
  }

  /** One entry of an order's `orderInfo`: the product bought, its tracking
      number, its status and its line amount in cents. */
  datatype LineItem = LineItem(productInfo: string, trackingNumber: string, status: Status, amount: int)

  /** An order document. `id` is the store's `_id`, `orderId` the readable id;
      customer and payment details are carried along unread. A missing
      `totalAmount` is `None`. `createdAt` is a timestamp in milliseconds. */
  datatype Order = Order(
    id: string,
    orderId: string,
    customerInfo: string,
    paymentInfo: string,
    items: seq<LineItem>,
    totalAmount: Option<int>,
    createdAt: int)

  /** The order collection, in its natural order. */
  type Store = seq<Order>

  /** `findById`: the position of the first order with the given `_id`. */
  function FindById(store: Store, id: string): (r: Option<nat>)
    ensures r.Some? ==> r.value < |store| && store[r.value].id == id
    ensures r.Some? ==> forall i :: 0 <= i < r.value ==> store[i].id != id
    ensures r.None? ==> forall i :: 0 <= i < |store| ==> store[i].id != id
  {
    if |store| == 0 then None
    else if store[0].id == id then Some(0)
    else match FindById(store[1..], id)
      case None => None
      case Some(i) => Some(i + 1)
  }

  /** The position of the first line item with the given tracking number
      (`orderInfo.find(info => info.trackingNumber === trackingNumber)`). */
  function ItemIndex(items: seq<LineItem>, trackingNumber: string): (r: Option<nat>)
    ensures r.Some? ==> r.value < |items| && items[r.value].trackingNumber == trackingNumber
    ensures r.Some? ==> forall j :: 0 <= j < r.value ==> items[j].trackingNumber != trackingNumber
    ensures r.None? ==> forall j :: 0 <= j < |items| ==> items[j].trackingNumber != trackingNumber
  {
    if |items| == 0 then None
    else if items[0].trackingNumber == trackingNumber then Some(0)
    else match ItemIndex(items[1..], trackingNumber)
      case None => None
      case Some(j) => Some(j + 1)
  }

  /** True when some line item of the order carries the tracking number. */
  predicate HasTracking(o: Order, trackingNumber: string) {
    exists j :: 0 <= j < |o.items| && o.items[j].trackingNumber == trackingNumber
  }

  /** No tracking number is carried by two line items, in one order or in two. */
  ghost predicate TrackingNumbersUnique(store: Store) {
    forall i1, j1, i2, j2 ::
      0 <= i1 < |store| && 0 <= j1 < |store[i1].items| &&
      0 <= i2 < |store| && 0 <= j2 < |store[i2].items| &&
      store[i1].items[j1].trackingNumber == store[i2].items[j2].trackingNumber
      ==> i1 == i2 && j1 == j2
  }
}

=== FILE: recent_products.dfy ===
/** The last step of `recentlyOrderedProductsFromDB`: the products fetched for
    the most recently ordered product ids come back in no particular order, so
    they are put back into the order of the id list, and ids without a product
    are dropped. */
module RecentProducts {
  import opened Results

  /** A fetched product, identified by its `_id`; the populated details are carried unread. */
  datatype Product = Product(id: string, details: string)

  /** `products.find(p => p._id.toString() === id.toString())`: the first product with that id. */
  function FindProduct(products: seq<Product>, id: string): (r: Option<Product>)
    ensures r.Some? ==> r.value in products && r.value.id == id
    ensures r.None? <==> forall k :: 0 <= k < |products| ==> products[k].id != id
    ensures r.Some? ==> exists k :: 0 <= k < |products| && products[k] == r.value
                                    && forall j :: 0 <= j < k ==> products[j].id != id
  {
    if |products| == 0 then None
    else if products[0].id == id then Some(products[0])
    else FindProduct(products[1..], id)
  }

  /** `productIds.map(id => products.find(...))`. */
  function LookupAll(ids: seq<string>, products: seq<Product>): (r: seq<Option<Product>>)
    ensures |r| == |ids|
    ensures forall k :: 0 <= k < |ids| ==> r[k] == FindProduct(products, ids[k])
  {
    if |ids| == 0 then [] else [FindProduct(products, ids[0])] + LookupAll(ids[1..], products)
  }

  /** `.filter(Boolean)`: the products that were found, in order. */
  function Present(found: seq<Option<Product>>): (r: seq<Product>)
    ensures |r| <= |found|
    ensures forall p :: p in r <==> Some(p) in found
  {
    if |found| == 0 then []
    else
      var rest := Present(found[1..]);
      assert forall x :: x in found <==> x == found[0] || x in found[1..];
      match found[0]
      case None => rest
      case Some(p) => [p] + rest
  }

  /** The ids of a list of products, in order. */
  function Ids(products: seq<Product>): (r: seq<string>)
    ensures |r| == |products|
  {
    if |products| == 0 then [] else [products[0].id] + Ids(products[1..])
  }

  /** Reference: the ids of the list that some fetched product carries, in list order. */
  function IdsWithProduct(ids: seq<string>, products: seq<Product>): (r: seq<string>)
    ensures |r| <= |ids|
  {
    if |ids| == 0 then []
    else if FindProduct(products, ids[0]).Some? then [ids[0]] + IdsWithProduct(ids[1..], products)
    else IdsWithProduct(ids[1..], products)
  }

  /** Step 4 together with the early return for an empty id list. */
  function RecentlyOrderedProducts(ids: seq<string>, products: seq<Product>): (r: seq<Product>)
    ensures |r| <= |ids|
    ensures forall p :: p in r ==> p in products && p.id in ids
  {
    if |ids| == 0 then []
    else
      var found := LookupAll(ids, products);
      assert forall p :: Some(p) in found ==> p in products && p.id in ids by {
        LookupAllFinds(ids, products);
      }
      Present(found)
  }

  /** The group keys that are product ids, in order; a line item without
      `productInfo` groups under the key `null`, written `None` here. */
  function NonNullIds(groupIds: seq<Option<string>>): (r: seq<string>)
    ensures |r| <= |groupIds|
    ensures forall x :: x in r <==> Some(x) in groupIds
    ensures (forall k :: 0 <= k < |groupIds| ==> groupIds[k].Some?) ==>
              |r| == |groupIds| && forall k :: 0 <= k < |r| ==> groupIds[k] == Some(r[k])
  {
    if |groupIds| == 0 then []
    else
      var rest := NonNullIds(groupIds[1..]);
      assert forall x :: x in groupIds <==> x == groupIds[0] || x in groupIds[1..];
      match groupIds[0]
      case None => rest
      case Some(id) => [id] + rest
  }

  /** Step 4 on the group keys as step 2 extracts them. A `null` key makes
      `id.toString()` throw a TypeError as soon as `find` calls its callback, that
      is, whenever a product was fetched; `None` stands for that failure. With no
      product fetched every lookup is `undefined` and the result is empty. */
  function RecentlyOrderedFromGroups(groupIds: seq<Option<string>>, products: seq<Product>): (r: Option<seq<Product>>)
    ensures r.None? <==> |products| > 0 && exists k :: 0 <= k < |groupIds| && groupIds[k].None?
    ensures |products| == 0 ==> r == Some([])
    ensures r.Some? ==> forall p :: p in r.value ==> p in products && Some(p.id) in groupIds
    ensures r.Some? ==> r.value == RecentlyOrderedProducts(NonNullIds(groupIds), products)
  {
    if |products| > 0 && exists k :: 0 <= k < |groupIds| && groupIds[k].None? then None
    else
      var ids := NonNullIds(groupIds);
      assert |products| == 0 ==> RecentlyOrderedProducts(ids, products) == [] by {
        if |products| == 0 {
          PresentOfMisses(LookupAll(ids, products));
        }
      }
      Some(RecentlyOrderedProducts(ids, products))
  }

  /** Lookups that all missed leave nothing to keep. */
  lemma {:induction false} PresentOfMisses(found: seq<Option<Product>>)
    requires forall k :: 0 <= k < |found| ==> found[k].None?
    ensures Present(found) == []
  {
    if |found| > 0 {
      PresentOfMisses(found[1..]);
    }
  }

  lemma {:induction false} LookupAllFinds(ids: seq<string>, products: seq<Product>)
    ensures forall p :: Some(p) in LookupAll(ids, products) ==> p in products && p.id in ids
  {
    if |ids| > 0 {
      LookupAllFinds(ids[1..], products);
      var found := LookupAll(ids, products);
      assert forall x :: x in found <==> x == found[0] || x in LookupAll(ids[1..], products);
    }
  }

  /** The products come back in the order of the id list, one for each id
      that has a product and none for the others. */
  lemma {:induction false} ResultFollowsIdOrder(ids: seq<string>, products: seq<Product>)
    ensures Ids(RecentlyOrderedProducts(ids, products)) == IdsWithProduct(ids, products)
  {
    if |ids| > 0 {
      ResultFollowsIdOrder(ids[1..], products);
      var found := LookupAll(ids, products);
      assert found[0] == FindProduct(products, ids[0]);
      assert found[1..] == LookupAll(ids[1..], products);
      if |ids| == 1 {
        assert LookupAll(ids[1..], products) == [];
      }
    }
  }

  /** When every id has a product, the result lists exactly one product per id, in id order. */
  lemma EveryIdFound(ids: seq<string>, products: seq<Product>)
    requires forall k :: 0 <= k < |ids| ==> FindProduct(products, ids[k]).Some?
    ensures Ids(RecentlyOrderedProducts(ids, products)) == ids
  {
    ResultFollowsIdOrder(ids, products);
    AllIdsWithProduct(ids, products);
  }

  lemma {:induction false} AllIdsWithProduct(ids: seq<string>, products: seq<Product>)
    requires forall k :: 0 <= k < |ids| ==> FindProduct(products, ids[k]).Some?
    ensures IdsWithProduct(ids, products) == ids
  {
    if |ids| > 0 {
      assert forall k :: 0 <= k < |ids[1..]| ==> ids[1..][k] == ids[k + 1];
      AllIdsWithProduct(ids[1..], products);
      assert ids == [ids[0]] + ids[1..];
    }
  }
}

=== FILE: results.dfy ===
/** Failure-carrying values shared by the order services.

    The services signal failure by throwing an application error that carries an
    HTTP status; only two kinds are raised by the order lifecycle: a missing
    order or tracking number, and an invalid status or date. */
module Results {

  /** An optional value, used for lookups that may find nothing. */
  datatype Option<+T> = None | Some(value: T)

  /** The application errors the order services raise. */
  datatype Error = NotFound | BadRequest

  /** Either the service's value or the error it raised. */
  datatype Result<+T> = Ok(value: T) | Err(error: Error)
}
